=== FILE: README.md ===
# frigate_notifications — decision core

A Dafny model of the part of the Frigate-to-ntfy bridge that decides what
to notify. The bridge receives object-detection events from Frigate over
MQTT. A "new" event with a snapshot becomes one ntfy notification. The
notification has a title (the label), an attachment (the snapshot URL), a
click target (the clip URL), tags, a priority and a body (the camera). With
grouping enabled, one shared timestamp marks when the current window
opened. A notification sent inside the window gets priority "2" and does
not extend the window. A notification sent after the window, or the first
one ever sent, gets priority "3" and opens a new window.

Modules:

- `Wrappers` (wrappers.dfy): the `Option` type.
- `Text` (text.dfy): first-letter capitalisation, the `key=value&…` snapshot
  query suffix, and a decoder (`DecodeQuery`) used as its inverse.
- `Events` (events.dfy): detection events and `Classify`, the message
  handler's decision.
- `Grouping` (grouping.dfy): the grouping decision `Decide` as a function,
  and runs of sends (`Priorities`, `LastAfter`).
- `Dispatch` (dispatch.dfy): configuration, the outbound request, and the
  class `Dispatcher`. It owns the timestamp `last`, which stands for
  `lastNotificationDate`. Its `Send` and `OnMessage` methods update `last`
  in place. They are proved against `Decide`, `Classify` and `BuildRequest`.

Time is an integer number of milliseconds, passed to the model as `now`.
`Math.floor((now - last) / 60000)` is Dafny's `/`. That division is
Euclidean, which equals floor for the positive divisor 60000, also when
`now < last`. The fetch is not performed: `Send` returns the `Request`
(URL, method, headers, body) that would be posted.

## Model

| member | source | states |
|---|---|---|
| `Text.UpperAscii` | app.js:113 | `toUpperCase` on one character, restricted to ASCII: `a`–`z` become `A`–`Z`, every other character is kept, and the result is never a lower-case ASCII letter |
| `Text.Capitalize` | app.js:112-114 | the empty string stays empty; otherwise the length is kept, the first character is upper-cased (ASCII) and the rest is unchanged |
| `Text.CapitalizeIdempotent` | app.js:112-114 | capitalising twice is the same as capitalising once |
| `Text.Entry` | app.js:107 | one option rendered as `key=value`; when the key holds no `=`, cutting the text at its first `=` gives back the key and the value |
| `Text.Join` | app.js:108 | `Array.join`: the parts with the separator between neighbours, "" for no parts; its inverse is stated by `Text.SplitJoin` |
| `Text.FormatOptions` | app.js:106-108 | the entries in entry order, each as `key=value`, joined by `&`; read back by `Text.ParseFormatOptions` |
| `Text.SnapshotQuery` | app.js:104-110 | the suffix is "" exactly when no options are configured; otherwise it is "?" followed by the entries joined by "&"; a configured empty map yields "?" |
| `Text.ParseFormatOptions` | app.js:105-109 | the entries, rendered as `key=value` in entry order and joined by `&`, read back to the same entries (keys free of `&` and `=`, values free of `&`) |
| `Text.QueryRoundTrip` | app.js:104-110 | decoding the snapshot suffix gives back exactly the configured options, including absent versus present-but-empty |
| `Text.SplitJoin` | app.js:108 | splitting a `join` on its separator returns the joined parts when no part holds the separator |
| `Events.Classify` | app.js:50-55 | a detection comes out only for an event of type "new", and it carries the camera, label and id of a record that has a snapshot |
| `Events.NotNewNeverNotifies` | app.js:50-56 | an event whose type is not "new" yields no notification, whatever `before` and `after` hold |
| `Events.BeforePreferred` | app.js:51-52 | for a "new" event whose `before` has a snapshot, the notification uses `before`'s camera, label and id |
| `Events.AfterFallback` | app.js:53-54 | otherwise, when `after` has a snapshot, it uses `after`'s fields |
| `Events.ClassifyNotifiesIff` | app.js:50-56 | a notification is produced exactly when the event is "new" and some record has a snapshot, and it comes from `before` if that record qualifies, else from `after` |
| `Grouping.ElapsedMinutes` | app.js:77-78 | the floor of the gap in minutes: `m * 60000 <= now - last < (m + 1) * 60000`, negative gaps included |
| `Grouping.Decide` | app.js:73-87 | the priority is "3" or "2", and the new timestamp is either the old one or `now` |
| `Grouping.ElapsedAtLeast` | app.js:77-79 | the floored elapsed minutes reach the window exactly when the gap in milliseconds reaches `minutes * 60000` |
| `Grouping.DecisionShape` | app.js:73-87 | the priority is always "3" or "2"; "2" only when the timestamp is unchanged; "3" moves the timestamp to `now` when grouping is enabled |
| `Grouping.DisabledNeverGroups` | app.js:73-74 | with grouping disabled the priority is "3" and the timestamp is untouched |
| `Grouping.FirstSendOpensWindow` | app.js:84-86 | with grouping enabled and no timestamp, the priority is "3" and the timestamp becomes `now` |
| `Grouping.WindowRule` | app.js:76-83 | after timestamp `last`, priority "3" (timestamp becomes `now`) exactly when `now - last >= minutes * 60000`; otherwise priority "2" with the timestamp kept, so grouped sends never extend the window |
| `Grouping.WindowBoundary` | app.js:78-79 | a gap of exactly `minutes * 60000` ms is fresh, and one millisecond less is grouped |
| `Grouping.TimestampMonotone` | app.js:76-86 | with grouping enabled the timestamp is present after a send; a send at or after the timestamp leaves it between the old timestamp and `now`, for any window; with a non-negative window it never decreases, even when `now` is earlier than the timestamp |
| `Grouping.FreshAfterLast` | app.js:76-83 | with grouping enabled and a non-negative window, every priority-"3" send in a run comes at least one window after the starting timestamp |
| `Grouping.FreshSendsSpaced` | app.js:72-87 | with grouping enabled and a non-negative window, any two priority-"3" sends in a run are at least one window apart |
| `Grouping.AllGroupedKeepsLast` | app.js:81-83 | a run of grouped sends leaves the timestamp where it was |
| `Grouping.LastIsLatestFresh` | app.js:76-86 | with grouping enabled, the timestamp after a run is the time of the run's last priority-"3" send |
| `Grouping.FiveMinuteWindow` | app.js:73-86 | with a five-minute window, sends at 0, 120000 and 300000 ms get priorities "3", "2", "3", and the timestamp ends at 300000 |
| `Dispatch.TagFor` | app.js:94 | the label's configured tag, absent exactly when the label has none |
| `Dispatch.BuildRequest` | app.js:88-98 | the attachment and click URLs both start with the event's `{media URL}/api/events/{id}` path, and the Priority header is the priority given |
| `Dispatch.RequestFields` | app.js:88-99 | the method is POST and it goes to `ntfy URL + "/" + ntfy topic`; Attach is the event's `/snapshot.jpg` URL followed by the snapshot query suffix, which decodes back to the options whenever they are unambiguous; Click is the event's `/clip.mp4` URL; Title and body are the capitalised label and camera; Tags is the label's configured tag, or absent when it has none; Priority is the priority given |
| `Dispatch.Dispatcher.constructor` | app.js:11 | the dispatcher starts with no timestamp |
| `Dispatch.Dispatcher.Send` | app.js:72-101 | the priority and the new timestamp are those of `Decide` on the old timestamp, and the returned request is `BuildRequest` at that priority; no timestamp is recorded while grouping is disabled |
| `Dispatch.Dispatcher.OnMessage` | app.js:45-57 | at most one request per message: none and no state change when `Classify` finds nothing, otherwise exactly one send for the classified detection |

## Left out

- Loading the config and secrets files with the path fallback, and YAML parsing (app.js:14-38): file I/O. The model takes `Config` and `Secrets` as immutable values.
- Logger setup and logging (app.js:23-27, 60-70): winston and a timezone-formatted clock. The logging of send failures is left out too.
- MQTT connect and subscribe (app.js:39-44) and `JSON.parse` (app.js:46): network and foreign calls. An event is a `DetectionEvent` value with optional `type`, `before` and `after`. A `null` payload, where `event.before` throws at app.js:47, is not modelled. A number, string or boolean payload reads as an event with no fields, `DetectionEvent(None, None, None)`, which notifies nobody.
- The `fetch` call and its `.catch` (app.js:99-101): asynchronous network I/O. `Send` returns the request instead of posting it, so send failures do not appear. The timestamp is updated before the request is built, as in the source.
- Reading the wall clock (app.js:75): `now` is an integer-millisecond parameter.
- Text.UpperAscii, Text.Capitalize: upper-case ASCII `a`–`z` only, because JavaScript's full Unicode `toUpperCase` can change the length (`ß` becomes `SS`). A Dafny `char` is a Unicode scalar value, so an astral character is one `char` here but two UTF-16 units in JavaScript. The result is unaffected, because JavaScript leaves a lone leading surrogate unchanged.
- Dispatch.TagFor: a plain map lookup. The model does not capture properties inherited from `Object.prototype`, or how `fetch` renders an undefined header.
- Text.SnapshotQuery: option values are taken as already converted to strings. The entry order is the order of the given sequence. JavaScript's `Object.entries` ordering (integer-like keys first) is the configuration loader's concern.
- The `camera`, `label` and `id` of a tracked object are always strings here. In the source, a chosen record without `label` or `camera` makes `capitalizeFirstLetter` throw (app.js:91, 97, 113). If that send is the first one or opens a window, the timestamp has already moved (app.js:80, 85). With grouping disabled, or inside the window, it stays where it was. No notification is sent either way. This failure is not modelled.
- Grouping.Decide: `grouping.minutes` is an integer and `grouping.enabled` a boolean. JavaScript truthiness and non-integer minutes are not modelled.
- Grouping.TimestampMonotone: the timestamp is not claimed to stay at or before `now` in general. When the clock goes backwards, a grouped send keeps a timestamp later than `now`. "Never decreases" when `now` is earlier than the timestamp needs a non-negative window: with a negative window, such a send opens a window and moves the timestamp back to `now`.

=== FILE: dispatch.dfy ===
/**
 * The notification dispatcher: it owns the grouping timestamp, picks the
 * priority of each notification and builds the request posted to the
 * notification service.
 */
module Dispatch {
  import opened Wrappers
  import opened Text
  import opened Events
  import opened Grouping

  /** The settings the core reads, fixed once loaded. */
  datatype Config = Config(
    grouping: GroupingConfig,
    tags: map<string, string>,
    snapshotOptions: Option<seq<(string, string)>>,
    ntfyTopic: string)

  /** Base URLs of the media service and of the notification service. */
  datatype Secrets = Secrets(frigateUrl: string, ntfyUrl: string)

  /** The outbound POST: its URL, headers and plain-text body. */
  datatype Request = Request(
    url: string,
    verb: string,
    title: string,
    attach: string,
    click: string,
    tags: Option<string>,
    priority: string,
    body: string)

  /** `{media URL}/api/events/{id}`, the common stem of the attachment and click URLs. */
  function EventPath(secrets: Secrets, id: string): string {
    secrets.frigateUrl + "/api/events/" + id
  }

  /** `tags[label]`: the configured tag of the label, absent when it has none. */
  function TagFor(config: Config, objectLabel: string): (t: Option<string>)
    ensures t.Some? <==> objectLabel in config.tags
    ensures t.Some? ==> t.value == config.tags[objectLabel]
  {
    if objectLabel in config.tags then Some(config.tags[objectLabel]) else None
  }

  /** The request for one detection at the given priority. */
  function BuildRequest(config: Config, secrets: Secrets, d: Detection, priority: string): (r: Request)
    ensures EventPath(secrets, d.id) <= r.attach && EventPath(secrets, d.id) <= r.click
    ensures r.priority == priority
  {
    Request(
      secrets.ntfyUrl + "/" + config.ntfyTopic,
      "POST",
      Capitalize(d.objectLabel),
      EventPath(secrets, d.id) + "/snapshot.jpg" + SnapshotQuery(config.snapshotOptions),
      EventPath(secrets, d.id) + "/clip.mp4",
      TagFor(config, d.objectLabel),
      priority,
      Capitalize(d.camera))
  }

  /**
   * The attachment URL is the event's snapshot path followed by the query
   * suffix, which reads back as the configured options when they are
   * unambiguous; the click URL is the same event's clip; title and body are
   * the label and camera capitalised.
   */
  lemma RequestFields(config: Config, secrets: Secrets, d: Detection, priority: string)
    ensures var r := BuildRequest(config, secrets, d, priority);
      var stem := EventPath(secrets, d.id) + "/snapshot.jpg";
      && r.url == secrets.ntfyUrl + "/" + config.ntfyTopic
      && r.attach == stem + SnapshotQuery(config.snapshotOptions)
      && ((config.snapshotOptions.Some? ==> Unambiguous(config.snapshotOptions.value)) ==>
          DecodeQuery(r.attach[|stem|..]) == config.snapshotOptions)
      && (config.snapshotOptions.None? <==> r.attach == stem)
      && r.click == EventPath(secrets, d.id) + "/clip.mp4"
      && |r.title| == |d.objectLabel| && |r.body| == |d.camera|
      && (d.objectLabel != [] ==> r.title[0] == UpperAscii(d.objectLabel[0]) && r.title[1..] == d.objectLabel[1..])
      && (d.camera != [] ==> r.body[0] == UpperAscii(d.camera[0]) && r.body[1..] == d.camera[1..])
      && r.tags == (if d.objectLabel in config.tags then Some(config.tags[d.objectLabel]) else None)
      && r.priority == priority && r.verb == "POST"
  {
    var r := BuildRequest(config, secrets, d, priority);
    var stem := EventPath(secrets, d.id) + "/snapshot.jpg";
    assert r.attach[|stem|..] == SnapshotQuery(config.snapshotOptions);
    if config.snapshotOptions.Some? ==> Unambiguous(config.snapshotOptions.value) {
      QueryRoundTrip(config.snapshotOptions);
    }
  }

  /** The single owner of the grouping timestamp. */
  class Dispatcher {
    const config: Config
    const secrets: Secrets
    /** When the current grouping window was opened, in milliseconds. */
    var last: Option<int>

    /** No timestamp is ever recorded while grouping is disabled. */
    ghost predicate Valid()
      reads this
    {
      !config.grouping.enabled ==> last.None?
    }

    constructor (config: Config, secrets: Secrets)
      ensures this.config == config && this.secrets == secrets
      ensures last == None && Valid()
    {
      this.config := config;
      this.secrets := secrets;
      last := None;
    }

    /**
     * Sends one notification at time `now`: chooses its priority from the
     * grouping timestamp, moves the timestamp when a window opens, and
     * returns the request to post.
     */
    method Send(camera: string, objectLabel: string, id: string, now: int) returns (req: Request)
      requires Valid()
      modifies this
      ensures Valid()
      ensures Decision(req.priority, last) == Decide(config.grouping, old(last), now)
      ensures req == BuildRequest(config, secrets, Detection(camera, objectLabel, id), req.priority)
    {
      var priority := Normal;
      if config.grouping.enabled {
        if last.Some? {
          var diffMinutes := (now - last.value) / MillisPerMinute;
          if diffMinutes >= config.grouping.minutes {
            last := Some(now);
          } else {
            priority := Grouped;
          }
        } else {
          last := Some(now);
        }
      }
      req := BuildRequest(config, secrets, Detection(camera, objectLabel, id), priority);
    }

    /**
     * Handles one inbound event: at most one notification, sent only for a
     * notifiable detection; any other event leaves the timestamp alone.
     */
    method OnMessage(event: DetectionEvent, now: int) returns (sent: Option<Request>)
      requires Valid()
      modifies this
      ensures Valid()
      ensures Classify(event).None? ==> sent.None? && last == old(last)
      ensures Classify(event).Some? ==>
        var d := Classify(event).value;
        && sent.Some?
        && Decision(sent.value.priority, last) == Decide(config.grouping, old(last), now)
        && sent.value == BuildRequest(config, secrets, d, sent.value.priority)
    {
      var detection := Classify(event);
      if detection.Some? {
        var d := detection.value;
        var req := Send(d.camera, d.objectLabel, d.id, now);
        sent := Some(req);
      } else {
        sent := None;
      }
    }
  }
}

=== FILE: events.dfy ===
/**
 * The detection events published by the video-analytics system, and the
 * decision whether one of them is a new, notifiable detection.
 */
module Events {
  import opened Wrappers

  /** One state of a tracked object, as carried in `before` or `after`. */
  datatype TrackedObject = TrackedObject(camera: string, objectLabel: string, id: string, hasSnapshot: bool)

  /** An inbound event; an absent `type`, `before` or `after` is `None`. */
  datatype DetectionEvent = DetectionEvent(kind: Option<string>, before: Option<TrackedObject>, after: Option<TrackedObject>)

  /** What a notification is sent about. */
  datatype Detection = Detection(camera: string, objectLabel: string, id: string)

  predicate HasSnapshot(o: Option<TrackedObject>) {
    o.Some? && o.value.hasSnapshot
  }

  function DetectionOf(o: TrackedObject): Detection {
    Detection(o.camera, o.objectLabel, o.id)
  }

  /**
   * Only a "new" event notifies; `before` is preferred when it has a
   * snapshot, then `after`; otherwise nothing is sent.
   */
  function Classify(e: DetectionEvent): (r: Option<Detection>)
    ensures r.Some? ==> e.kind == Some("new")
    ensures r.Some? ==>
      (HasSnapshot(e.before) && r.value == DetectionOf(e.before.value)) ||
      (HasSnapshot(e.after) && r.value == DetectionOf(e.after.value))
  {
    if e.kind == Some("new") then
      if HasSnapshot(e.before) then Some(DetectionOf(e.before.value))
      else if HasSnapshot(e.after) then Some(DetectionOf(e.after.value))
      else None
    else None
  }

  lemma NotNewNeverNotifies(e: DetectionEvent)
    requires e.kind != Some("new")
    ensures Classify(e) == None
  {
  }

  lemma BeforePreferred(e: DetectionEvent)
    requires e.kind == Some("new") && HasSnapshot(e.before)
    ensures Classify(e) == Some(DetectionOf(e.before.value))
  {
  }

  lemma AfterFallback(e: DetectionEvent)
    requires e.kind == Some("new") && !HasSnapshot(e.before) && HasSnapshot(e.after)
    ensures Classify(e) == Some(DetectionOf(e.after.value))
  {
  }

  /** A detection comes out exactly when some record of a "new" event has a snapshot. */
  lemma ClassifyNotifiesIff(e: DetectionEvent)
    ensures Classify(e).Some? <==> e.kind == Some("new") && (HasSnapshot(e.before) || HasSnapshot(e.after))
    ensures Classify(e).Some? ==>
      (HasSnapshot(e.before) && Classify(e).value == DetectionOf(e.before.value)) ||
      (!HasSnapshot(e.before) && HasSnapshot(e.after) && Classify(e).value == DetectionOf(e.after.value))
  {
  }
}

=== FILE: grouping.dfy ===
/**
 * The grouping policy: one shared timestamp of the last notification that
 * opened a window, and the priority each notification gets from it.
 */
module Grouping {
  import opened Wrappers

  const MillisPerMinute: int := 60000
  /** Priority header of a notification that opens a window (default). */
  const Normal: string := "3"
  /** Priority header of a notification sent inside an open window. */
  const Grouped: string := "2"

  datatype GroupingConfig = GroupingConfig(enabled: bool, minutes: int)

  /** The priority header a send uses, and the timestamp after it. */
  datatype Decision = Decision(priority: string, last: Option<int>)

  /** `Math.floor((now - last) / 60000)`; Euclidean division floors for a positive divisor. */
  function ElapsedMinutes(last: int, now: int): (m: int)
    ensures m * MillisPerMinute <= now - last < (m + 1) * MillisPerMinute
  {
    (now - last) / MillisPerMinute
  }

  /** The grouping decision for a send at `now` (milliseconds) after timestamp `last`. */
  function Decide(g: GroupingConfig, last: Option<int>, now: int): (d: Decision)
    ensures d.priority == Normal || d.priority == Grouped
    ensures d.last == last || d.last == Some(now)
  {
    if !g.enabled then Decision(Normal, last)
    else if last.None? then Decision(Normal, Some(now))
    else if ElapsedMinutes(last.value, now) >= g.minutes then Decision(Normal, Some(now))
    else Decision(Grouped, last)
  }

  /** The floor of d/60000 reaches m exactly when d reaches m minutes. */
  lemma ElapsedAtLeast(last: int, now: int, m: int)
    ensures ElapsedMinutes(last, now) >= m <==> now - last >= m * MillisPerMinute
  {
  }

  /** Every decision uses "3" or "2", and "2" only when the timestamp is kept. */
  lemma DecisionShape(g: GroupingConfig, last: Option<int>, now: int)
    ensures Decide(g, last, now).priority in {Normal, Grouped}
    ensures Decide(g, last, now).priority == Grouped ==> Decide(g, last, now).last == last
    ensures Decide(g, last, now).priority == Normal ==>
      Decide(g, last, now).last == (if g.enabled then Some(now) else last)
  {
  }

  lemma DisabledNeverGroups(g: GroupingConfig, last: Option<int>, now: int)
    requires !g.enabled
    ensures Decide(g, last, now) == Decision(Normal, last)
  {
  }

  lemma FirstSendOpensWindow(g: GroupingConfig, now: int)
    requires g.enabled
    ensures Decide(g, None, now) == Decision(Normal, Some(now))
  {
  }

  /**
   * With a previous timestamp, a send opens a new window (priority "3",
   * timestamp moves to `now`) exactly when at least `minutes` whole minutes
   * have passed; otherwise it is grouped and the window is not extended.
   */
  lemma WindowRule(g: GroupingConfig, last: int, now: int)
    requires g.enabled
    ensures Decide(g, Some(last), now).priority == Normal <==> now - last >= g.minutes * MillisPerMinute
    ensures now - last >= g.minutes * MillisPerMinute ==> Decide(g, Some(last), now).last == Some(now)
    ensures now - last < g.minutes * MillisPerMinute ==>
      Decide(g, Some(last), now) == Decision(Grouped, Some(last))
  {
  }

  /** A gap of exactly `minutes` is fresh; one millisecond less is grouped. */
  lemma WindowBoundary(g: GroupingConfig, last: int)
    requires g.enabled
    ensures Decide(g, Some(last), last + g.minutes * MillisPerMinute).priority == Normal
    ensures Decide(g, Some(last), last + g.minutes * MillisPerMinute - 1).priority == Grouped
  {
  }

  /**
   * A send at or after the last timestamp leaves it between that timestamp
   * and `now`; with a non-negative window the timestamp never moves
   * backwards, even when the clock does.
   */
  lemma TimestampMonotone(g: GroupingConfig, last: Option<int>, now: int)
    requires g.enabled
    ensures Decide(g, last, now).last.Some?
    ensures last.Some? && last.value <= now ==>
      last.value <= Decide(g, last, now).last.value <= now
    ensures last.Some? && g.minutes >= 0 ==> last.value <= Decide(g, last, now).last.value
  {
  }

  /** The priorities of successive sends at the times `times`, starting from `last`. */
  function Priorities(g: GroupingConfig, last: Option<int>, times: seq<int>): (ps: seq<string>)
    ensures |ps| == |times|
    decreases |times|
  {
    if times == [] then []
    else
      var d := Decide(g, last, times[0]);
      [d.priority] + Priorities(g, d.last, times[1..])
  }

  /** The timestamp after successive sends at the times `times`. */
  function LastAfter(g: GroupingConfig, last: Option<int>, times: seq<int>): Option<int>
    decreases |times|
  {
    if times == [] then last
    else LastAfter(g, Decide(g, last, times[0]).last, times[1..])
  }

  /** Every fresh send after timestamp `last` comes at least one window after it. */
  lemma {:induction false} FreshAfterLast(g: GroupingConfig, last: int, times: seq<int>, j: int)
    requires g.enabled && g.minutes >= 0
    requires 0 <= j < |times| && Priorities(g, Some(last), times)[j] == Normal
    ensures times[j] - last >= g.minutes * MillisPerMinute
    decreases |times|
  {
    WindowRule(g, last, times[0]);
    var d := Decide(g, Some(last), times[0]);
    if j > 0 {
      if d.priority == Normal {
        FreshAfterLast(g, times[0], times[1..], j - 1);
        assert times[j] - times[0] >= g.minutes * MillisPerMinute;
        assert times[0] - last >= g.minutes * MillisPerMinute >= 0;
      } else {
        FreshAfterLast(g, last, times[1..], j - 1);
      }
    }
  }

  /**
   * Any two notifications sent with priority "3" are at least one grouping
   * window apart: the policy opens at most one window per cooldown period.
   */
  lemma {:induction false} FreshSendsSpaced(g: GroupingConfig, last: Option<int>, times: seq<int>, i: int, j: int)
    requires g.enabled && g.minutes >= 0
    requires 0 <= i < j < |times|
    requires Priorities(g, last, times)[i] == Normal && Priorities(g, last, times)[j] == Normal
    ensures times[j] - times[i] >= g.minutes * MillisPerMinute
    decreases |times|
  {
    var d := Decide(g, last, times[0]);
    if i == 0 {
      assert d.last == Some(times[0]);
      FreshAfterLast(g, times[0], times[1..], j - 1);
    } else {
      FreshSendsSpaced(g, d.last, times[1..], i - 1, j - 1);
    }
  }

  /** While grouping is enabled the timestamp after a run is that of its last priority-"3" send. */
  lemma {:induction false} LastIsLatestFresh(g: GroupingConfig, last: Option<int>, times: seq<int>, j: int)
    requires g.enabled
    requires 0 <= j < |times| && Priorities(g, last, times)[j] == Normal
    requires forall k :: j < k < |times| ==> Priorities(g, last, times)[k] == Grouped
    ensures LastAfter(g, last, times) == Some(times[j])
    decreases |times|
  {
    var d := Decide(g, last, times[0]);
    var tail := Priorities(g, d.last, times[1..]);
    assert forall k :: 0 <= k < |tail| ==> tail[k] == Priorities(g, last, times)[k + 1];
    if j == 0 {
      AllGroupedKeepsLast(g, d.last, times[1..]);
    } else {
      LastIsLatestFresh(g, d.last, times[1..], j - 1);
    }
  }

  lemma {:induction false} AllGroupedKeepsLast(g: GroupingConfig, last: Option<int>, times: seq<int>)
    requires forall k :: 0 <= k < |times| ==> Priorities(g, last, times)[k] == Grouped
    ensures LastAfter(g, last, times) == last
    decreases |times|
  {
    if times != [] {
      var d := Decide(g, last, times[0]);
      assert Priorities(g, last, times)[0] == Grouped;
      var tail := Priorities(g, d.last, times[1..]);
      assert forall k :: 0 <= k < |tail| ==> tail[k] == Priorities(g, last, times)[k + 1];
      AllGroupedKeepsLast(g, d.last, times[1..]);
    }
  }

  /** A five-minute window: sends at 0, 2 and exactly 5 minutes get "3", "2", "3". */
  lemma FiveMinuteWindow()
    ensures Priorities(GroupingConfig(true, 5), None, [0, 120000, 300000]) == [Normal, Grouped, Normal]
    ensures LastAfter(GroupingConfig(true, 5), None, [0, 120000, 300000]) == Some(300000)
  {
    var g := GroupingConfig(true, 5);
    assert Decide(g, None, 0) == Decision(Normal, Some(0));
    WindowRule(g, 0, 120000);
    WindowRule(g, 0, 300000);
    assert [0, 120000, 300000][1..] == [120000, 300000];
    assert [120000, 300000][1..] == [300000];
    assert [300000][1..] == [];
  }
}

=== FILE: text.dfy ===
/**
 * String building used for the notification payload: capitalising the
 * first letter of a label or camera name, and the query suffix appended to
 * the snapshot URL from the configured snapshot options.
 */
module Text {
  import opened Wrappers

  predicate IsLowerAscii(c: char) {
    'a' <= c <= 'z'
  }

  /** Upper-cases one ASCII letter; every other character is kept. */
  function UpperAscii(c: char): (u: char)
    ensures IsLowerAscii(c) ==> u as int == c as int - 32
    ensures !IsLowerAscii(c) ==> u == c
    ensures !IsLowerAscii(u)
  {
    if IsLowerAscii(c) then (c as int - 32) as char else c
  }

  /** `charAt(0).toUpperCase() + slice(1)`: the empty string stays empty. */
  function Capitalize(s: string): (r: string)
    ensures |r| == |s|
    ensures |s| > 0 ==> r[0] == UpperAscii(s[0]) && r[1..] == s[1..]
    ensures s == [] ==> r == []
  {
    if s == [] then [] else [UpperAscii(s[0])] + s[1..]
  }

  lemma CapitalizeIdempotent(s: string)
    ensures Capitalize(Capitalize(s)) == Capitalize(s)
  {
  }

  /** Array `join`: the parts with `sep` between neighbours; no parts give "". */
  function Join(parts: seq<string>, sep: char): (r: string)
  {
    if |parts| == 0 then ""
    else if |parts| == 1 then parts[0]
    else parts[0] + [sep] + Join(parts[1..], sep)
  }

  /** String `split` on one character; it always yields at least one piece. */
  function Split(s: string, sep: char): (r: seq<string>)
    ensures |r| >= 1
  {
    if s == [] then [""]
    else
      var rest := Split(s[1..], sep);
      if s[0] == sep then [""] + rest
      else [[s[0]] + rest[0]] + rest[1..]
  }

  lemma {:induction false} SplitNoSeparator(s: string, sep: char)
    requires sep !in s
    ensures Split(s, sep) == [s]
  {
    if s != [] {
      SplitNoSeparator(s[1..], sep);
      assert [s[0]] + s[1..] == s;
    }
  }

  lemma {:induction false} SplitAfterPiece(a: string, sep: char, b: string)
    requires sep !in a
    ensures Split(a + [sep] + b, sep) == [a] + Split(b, sep)
  {
    if a == [] {
      assert a + [sep] + b == [sep] + b;
      assert ([sep] + b)[1..] == b;
    } else {
      var s := a + [sep] + b;
      assert s[0] == a[0] && s[1..] == a[1..] + [sep] + b;
      SplitAfterPiece(a[1..], sep, b);
      assert [a[0]] + a[1..] == a;
    }
  }

  /** Splitting a join gives back the parts when no part holds the separator. */
  lemma {:induction false} SplitJoin(parts: seq<string>, sep: char)
    requires |parts| >= 1
    requires forall i :: 0 <= i < |parts| ==> sep !in parts[i]
    ensures Split(Join(parts, sep), sep) == parts
  {
    if |parts| == 1 {
      SplitNoSeparator(parts[0], sep);
    } else {
      SplitJoin(parts[1..], sep);
      SplitAfterPiece(parts[0], sep, Join(parts[1..], sep));
      assert [parts[0]] + parts[1..] == parts;
    }
  }

  /** Cuts a string at the first `sep`: the text before it and the text after it. */
  function CutAtFirst(s: string, sep: char): (string, string)
  {
    if s == [] then ("", "")
    else if s[0] == sep then ("", s[1..])
    else
      var (before, after) := CutAtFirst(s[1..], sep);
      ([s[0]] + before, after)
  }

  lemma {:induction false} CutAtFirstJoined(k: string, sep: char, v: string)
    requires sep !in k
    ensures CutAtFirst(k + [sep] + v, sep) == (k, v)
  {
    var s := k + [sep] + v;
    if k == [] {
      assert s == [sep] + v && s[1..] == v;
    } else {
      assert s[0] == k[0] && s[1..] == k[1..] + [sep] + v;
      CutAtFirstJoined(k[1..], sep, v);
      assert [k[0]] + k[1..] == k;
    }
  }

  /** One snapshot option rendered as `key=value`; a key without `=` can be cut back out. */
  function Entry(kv: (string, string)): (r: string)
    ensures '=' !in kv.0 ==> CutAtFirst(r, '=') == kv
  {
    assert '=' !in kv.0 ==> CutAtFirst(kv.0 + "=" + kv.1, '=') == kv by {
      if '=' !in kv.0 { CutAtFirstJoined(kv.0, '=', kv.1); }
    }
    kv.0 + "=" + kv.1
  }

  /** The option entries, in entry order, as `key=value` joined by `&`. */
  function FormatOptions(options: seq<(string, string)>): string {
    Join(seq(|options|, i requires 0 <= i < |options| => Entry(options[i])), '&')
  }

  /**
   * The snapshot URL suffix: "" when no options are configured, otherwise
   * "?" followed by the entries; a configured but empty map yields "?".
   */
  function SnapshotQuery(options: Option<seq<(string, string)>>): (r: string)
    ensures options.None? <==> r == ""
    ensures options.Some? ==> r == "?" + FormatOptions(options.value)
    ensures options == Some([]) ==> r == "?"
  {
    match options
    case None => ""
    case Some(entries) => "?" + FormatOptions(entries)
  }

  /** Reads a `key=value&...` query back into its entries. */
  function ParseOptions(q: string): seq<(string, string)> {
    if q == [] then []
    else
      var pieces := Split(q, '&');
      seq(|pieces|, i requires 0 <= i < |pieces| => CutAtFirst(pieces[i], '='))
  }

  /** Reads a snapshot URL suffix back into the options it came from. */
  function DecodeQuery(suffix: string): Option<seq<(string, string)>> {
    if suffix == [] then None
    else Some(ParseOptions(suffix[1..]))
  }

  /** Keys free of `&` and `=`, values free of `&`: the suffix can be read back. */
  predicate Unambiguous(options: seq<(string, string)>) {
    forall i :: 0 <= i < |options| ==>
      '&' !in options[i].0 && '=' !in options[i].0 && '&' !in options[i].1
  }

  lemma ParseFormatOptions(options: seq<(string, string)>)
    requires Unambiguous(options)
    ensures ParseOptions(FormatOptions(options)) == options
  {
    var parts := seq(|options|, i requires 0 <= i < |options| => Entry(options[i]));
    if |options| == 0 {
      assert FormatOptions(options) == "";
    } else {
      forall i | 0 <= i < |parts| ensures '&' !in parts[i] {
        assert parts[i] == options[i].0 + "=" + options[i].1;
      }
      SplitJoin(parts, '&');
      var q := FormatOptions(options);
      assert '=' in parts[0] by { assert parts[0][|options[0].0|] == '='; }
      assert q != [] by {
        if |parts| == 1 { } else { assert |q| >= |parts[0]|; }
      }
      var parsed := ParseOptions(q);
      assert |parsed| == |options|;
      forall i | 0 <= i < |options| ensures parsed[i] == options[i] {
        CutAtFirstJoined(options[i].0, '=', options[i].1);
      }
    }
  }

  /** Decoding the suffix gives back exactly the configured options. */
  lemma QueryRoundTrip(options: Option<seq<(string, string)>>)
    requires options.Some? ==> Unambiguous(options.value)
    ensures DecodeQuery(SnapshotQuery(options)) == options
  {
    if options.Some? {
      var q := SnapshotQuery(options);
      assert q[1..] == FormatOptions(options.value);
      ParseFormatOptions(options.value);
    }
  }
}

=== FILE: wrappers.dfy ===
/** The optional value used wherever a field of the bridge may be absent. */
module Wrappers {

  datatype Option<+T> = None | Some(value: T)
}
